=== FILE: README.md ===
# Onboard-First AI Assistant: the chat controller in Dafny

The assistant is a Flask chatbot. It answers questions about a company from
a retrieval-augmented language model. Along the way it walks a visitor
through onboarding: the bot asks for a name, an email address and a phone
number, then appends one row per completed visitor to a CSV lead file.

This project models the per-message controller `chat()` in `app.py` as a
pure transition function, together with the helpers it decides with:

- `is_valid_email` and `is_valid_phone`, the two regular-expression validators;
- `wants_onboarding`, a case-insensitive substring test against six trigger phrases;
- `interpret_yes_no`, an exact match of the stripped, lower-cased message against two word lists.

Modules:

- `Wrappers` holds `Option`.
- `Text` models the string primitives the controller relies on: `str.strip()`, `str.lower()`, `x in y` on strings, and `split(' ')[0]`.
- `Validators` models the two validators. Each pattern appears in three forms, proved to agree:
  - a predicate transcribing the regular expression, with one disjunct per way the pattern can match: `IsValidEmail` (app.py:45-46) and `IsValidPhone` (app.py:48-49);
  - a closed form: `EmailShape` and `PhoneShape`;
  - a one-pass checker method: `CheckEmail` and `CheckPhone`.
- `Intent` models the two keyword classifiers:
  - `WantsOnboarding` is `wants_onboarding` (app.py:70-72);
  - `InterpretYesNo` is `interpret_yes_no` (app.py:74-80), the word-list lookup `Classify` applied to the stripped, lower-cased message.
- `Dialogue` models one call of `chat()`.
  - The Flask session becomes an explicit value, `Option<Session>`. It is `None` until the first non-empty message.
  - Retrieval and generation are one oracle outcome, `QaOutcome`. It is either the model's answer text or a failure.
  - The CSV row is the emitted `Lead`.
  - Replies are a `Message` datatype. `Render` gives the exact text each one sends, the reply strings of app.py:110-182.
- `Conversation` applies `chat()` to a sequence of messages in one session. It also states the scenarios of `test_app.py` as lemmas.

The central facts proved:

- Every reachable session satisfies an invariant:
  - the collected fields are exactly those of the stages already passed;
  - each stored field is a stripped, non-empty message;
  - the stored email and phone passed their validators;
  - a completed visitor is never awaiting a reply to the nudge.
- The stage only moves forward, one step at a time, when turns are handled one after another.
- A lead row is written exactly on the turn that completes onboarding. The row is complete and valid.
- A whole conversation, handled one turn after another, writes at most one lead row.
- A completed visitor is never nudged again and, when turns are handled one after another, cannot onboard twice.

## Model

| member | source | states |
|---|---|---|
| Text.TrimLeft | app.py:108 | the result is the suffix of the input left after a run of spaces; it is empty or starts with a non-space |
| Text.TrimRight | app.py:108 | the result is the prefix of the input before a run of spaces; it is empty or ends with a non-space |
| Text.Strip | app.py:108 | `strip()` neither starts nor ends with a space, and is empty exactly when the message is all spaces (the empty-message test of line 109) |
| Text.StripInfix | app.py:108 | `strip()` keeps an infix of the message, with only spaces before and after it |
| Text.TrimmedIsStripped | app.py:108-109 | the non-empty stripped messages are exactly the strings that start and end with a non-space, and `strip()` leaves those unchanged |
| Text.StripIdempotent | app.py:108 | stripping twice is stripping once |
| Text.StrippedHasNoFinalNewline | app.py:108 | a message that passed line 108 never ends in a line feed |
| Text.LowerChar | app.py:72 | `lower()` on one ASCII character: each capital becomes the character 32 above it, the rest stay; the result is never a capital |
| Text.Lower | app.py:72 | `lower()` keeps the length and leaves no capital; every other character stays in place, and each capital becomes the character 32 above it |
| Text.LowerAppend | app.py:72 | lower-casing distributes over concatenation |
| Text.LowerOfLowercase | app.py:72 | a string without capitals is its own lower-case form |
| Text.LowerIdempotent | app.py:72 | lower-casing twice is lower-casing once |
| Text.LowerKeepsTrimmed | app.py:75 | lower-casing keeps a stripped string stripped |
| Text.PlainWord | app.py:75 | a trimmed word without capitals survives `strip().lower()` unchanged |
| Text.ContainsExtend | app.py:72 | a substring occurrence survives any text added before or after |
| Text.FirstWord | app.py:129 | `split(' ')[0]` is the longest prefix without U+0020: the rest of the string is empty or starts with a space |
| Validators.PhoneDigits | app.py:49 | the number with its optional `+` removed |
| Validators.OneThenDigitsShape | app.py:49 | `1?\d{9,15}$` accepts exactly the all-digit strings of 9 to 15 digits, or 16 starting with `1` |
| Validators.PhoneClosedForm | app.py:48-49 | `^\+?1?\d{9,15}$` accepts exactly: an optional `+`, then 9-15 digits, or 16 digits starting with `1` |
| Validators.CheckPhone | app.py:48-49 | a single left-to-right scan decides is_valid_phone exactly |
| Validators.EmailClosedForm | app.py:45-46 | `[^@]+@[^@]+\.[^@]+` matches at the start exactly when the first `@` is not the first character and a dot follows it before any further `@`, with at least one character before the dot and a non-`@` after it |
| Validators.EmailSuffixAllowed | app.py:45-46 | `re.match` anchors only at the start, so anything may follow a valid address |
| Validators.EmailNeedsAtThenDot | app.py:45-46 | every accepted address has an `@` with a `.` somewhere after it |
| Validators.NoAtNoEmail | app.py:45-46 | a string without `@` is rejected |
| Validators.NoDotNoEmail | app.py:45-46 | a string without `.` is rejected |
| Validators.LeadingAtNoEmail | app.py:45-46 | the local part cannot be empty |
| Validators.NoMatchPastFirstAt | app.py:45-46 | if no domain dot follows the first `@` before the next `@`, the pattern fails at every start split |
| Validators.CheckEmail | app.py:45-46 | a scan that finds the first `@` and then looks for a domain dot before the next `@` decides is_valid_email exactly |
| Validators.EmailVectors | test_app.py:23-25 | the three email vectors of the unit test: one accepted, two rejected |
| Validators.PhoneVectors | test_app.py:28-31 | the four phone vectors of the unit test: two accepted, two rejected |
| Validators.EmailNeedsNonEmptyParts | app.py:45-46 | `a@.b` and `@a.b` are rejected: the domain part and the local part must be non-empty |
| Intent.WantsOnboardingExtend | app.py:70-72 | text before or after a message never withdraws an onboarding request |
| Intent.WantsOnboardingIgnoresCase | app.py:70-72 | letter case does not matter to the trigger test |
| Intent.YesNoDisjoint | app.py:76-78 | no word is on both lists |
| Intent.InterpretYesNoExact | app.py:74-80 | "yes" exactly on the yes list, "no" exactly on the no list, None exactly off both |
| Intent.InterpretYesNoNormalised | app.py:74-80 | the answer depends only on the stripped, lower-cased message |
| Intent.NormaliseIdempotent | app.py:75 | `strip().lower()` applied twice equals applied once |
| Intent.StripOfLowerStripped | app.py:75 | lower-casing a stripped string leaves it stripped |
| Intent.GetStartedIsTrigger | test_app.py:88 | "get started" is trimmed, an onboarding request, and neither yes nor no |
| Intent.SignMeUpIsTrigger | test_app.py:103 | "sign me up" is trimmed, an onboarding request, and neither yes nor no |
| Intent.YesIsYes | test_app.py:62 | "yes" is trimmed and read as yes |
| Dialogue.RenderedAnswer | app.py:171-176 | a Q&A reply begins with the model's answer unchanged; the nudged form contains the nudge question, the plain form is the answer alone |
| Dialogue.Respond | app.py:121-182 | the stage never moves back and never skips one; a completed visitor stays complete; a lead row is emitted exactly when AwaitingPhone becomes Complete, and it holds the stored data; the data changes only by storing the message under the field of the current stage, and only while advancing |
| Dialogue.Converse | app.py:148-182 | the Q&A and nudge branch writes no lead row, never changes the collected data, and moves only Idle to AwaitingName |
| Dialogue.ConverseOn | app.py:150-182 | the same, given the message's yes/no answer |
| Dialogue.ConverseYes | app.py:154-157 | given the answer "yes" while the flag is up in Idle, whatever the message: AwaitingName, flag cleared, name asked for |
| Dialogue.ConverseNo | app.py:158-160 | given the answer "no" while the flag is up in Idle, whatever the message: only the flag is cleared |
| Dialogue.Chat | app.py:107-187 | an all-space message gets the prompt and leaves the session untouched, even a missing one; any other message leaves a session behind; a completed visitor stays complete |
| Dialogue.RespondPreservesInv | app.py:113-182 | every step from a session satisfying the invariant, on a stripped message, lands in one that satisfies it |
| Dialogue.LeadIsComplete | app.py:137-143 | the lead row holds the stored name and email and the phone just given, all valid |
| Dialogue.FlagOnlyBeforeCompletion | app.py:141 | under the invariant, the nudge flag is never up for a completed visitor |
| Dialogue.NameAlwaysAccepted | app.py:126-129 | any message is stored as the name, and the reply greets the first word |
| Dialogue.EmailStep | app.py:130-136 | a rejected address changes nothing and re-asks; an accepted one is stored and the phone is asked for |
| Dialogue.PhoneStep | app.py:137-145 | a rejected number changes nothing and re-asks; an accepted one completes, clears the flag and writes the lead row |
| Dialogue.NudgeAccepted | app.py:154-157 | "yes" to the nudge starts onboarding and clears the flag |
| Dialogue.NudgeDeclined | app.py:158-160 | "no" to the nudge only clears the flag |
| Dialogue.OnboardingRequested | app.py:163-165 | an explicit request starts onboarding and leaves the flag as it was |
| Dialogue.NoSecondOnboarding | app.py:150-151 | a completed visitor who asks again, or says yes, is told it is done; nothing changes |
| Dialogue.CompleteNeverNudged | app.py:150-178 | for a completed visitor, whatever the message and the Q&A outcome, the reply carries no nudge, the flag stays down and the stage stays Complete |
| Dialogue.QuestionAnswered | app.py:168-182 | every other message goes to Q&A: an answer is nudged and raises the flag unless complete; a failure gives the apology and changes nothing |
| Dialogue.ChatPreservesReachable | app.py:107-187 | a whole call keeps the session invariant, starting from no session at all |
| Dialogue.RespondLead | app.py:137-143 | a step writes a lead row exactly when it completes onboarding, and the row is valid |
| Dialogue.ChatLead | app.py:137-143 | a whole call writes a lead row exactly when it completes onboarding, and the row is valid |
| Conversation.Run | app.py:107-187 | a conversation of turns handled one after another gives one reply per message and never undoes completion |
| Conversation.RunPreservesReachable | app.py:107-187 | every session a conversation reaches satisfies the invariant |
| Conversation.RunLeads | app.py:137-143 | a conversation writes one lead row if it completes onboarding and none otherwise; every row is valid |
| Conversation.RunAppend | app.py:107-187 | two batches of messages sent one after the other behave as their concatenation |
| Conversation.CompletedInv | app.py:137-142 | the session onboarding leaves behind satisfies the invariant |
| Conversation.PhoneIsTrimmed | app.py:49 | a valid phone number starts and ends with a non-space |
| Conversation.TriggerTurn | app.py:163-165 | a trigger phrase opens a fresh session at AwaitingName |
| Conversation.QuestionTurn | app.py:168-176 | a question to a fresh session is answered with the nudge, and the flag is raised |
| Conversation.YesTurn | app.py:154-157 | "yes" to the nudge moves to AwaitingName and clears the flag |
| Conversation.CompletedQuestionTurn | app.py:174-178 | a completed visitor's question is answered without the nudge, and the session is unchanged |
| Conversation.CompletedRequestTurn | app.py:150-151 | a completed visitor's second request is turned away |
| Conversation.NameTurn | app.py:126-129 | the name turn stores the name and asks for the email |
| Conversation.EmailTurn | app.py:130-134 | the email turn stores a valid address and asks for the phone |
| Conversation.PhoneTurn | app.py:137-143 | the phone turn completes onboarding and writes exactly the collected row |
| Conversation.OnboardingFromTrigger | test_app.py:86-93 | trigger, name, valid email, valid phone: four replies in order, a completed session with exactly those fields, exactly one lead row |
| Conversation.OnboardingGetStarted | test_app.py:88-93 | the same conversation opened with "get started" |
| Conversation.NudgeThenOnboarding | test_app.py:54-79 | question, "yes", name, email, phone: the nudged answer, then the onboarding replies, completion and one lead row |
| Conversation.CompletedStaysComplete | test_app.py:95-105 | after completion, a question gets the bare answer and a request is turned away; the session is unchanged and no row is written |
| Conversation.OnboardOnlyOnce | test_app.py:86-105 | the only-once scenario end to end: six replies, the completed session, and still exactly one lead row |

## Left out

- The Flask and HTTP layer: `request.json`, `jsonify` and the route decorators. `Chat` takes the message string and returns the reply. A request without a `message` key reads as the empty string, which `Chat` already handles.
- `home()` clearing the session. A conversation that starts over is `Run` from `None`.
- The session id and `log_chat_message`. The chat log is a write-only side effect that no decision reads.
- Failures outside Q&A are not modelled. `log_chat_message` (lines 119 and 185) and `save_details_to_csv` (line 143) can raise, and `chat()` does not catch that. The request then ends without a reply. What happens to the session then depends on Flask's error handling. With `debug=True`, as line 190 starts the app, the exception is re-raised before the session is saved, so the stored stage stays `awaiting_phone`. If the write at line 143 succeeded and the log at line 185 then failed, sending the number again writes a second row. With debug off, Flask answers 500 and still saves the session, so a failed write at line 143 leaves it completed (lines 139-141) with no row written. A `message` that is not a string makes `.strip()` raise at line 108. `Chat` always returns a reply. The lead guarantees (`Dialogue.ChatLead`, `Conversation.RunLeads`) assume that both the append at line 143 and the log at line 185 succeed.
- Overlapping requests of one session are not modelled. `app.run(debug=True)` (line 190) serves requests on threads, and the session is loaded when a request starts and saved when it ends. Two phone-number requests sent close together can both read `awaiting_phone`, both pass line 138 and both append a row at line 143. `Conversation.Run` handles turns one after another, so `Conversation.RunLeads` and the at-most-one-row guarantee hold only for turns that do not overlap. Line 186 marks every session modified, so each request saves its own copy, and the last save wins. A stale save from an overlapping request can therefore move a completed session back to `awaiting_phone`: a valid number saves `complete` and writes a row, then an invalid number sent alongside it saves its unchanged `awaiting_phone` copy, and the next valid number writes a second row. `Complete` is absorbing only for turns that do not overlap: the `Dialogue.Respond` clause that a completed visitor stays complete, the never-undoes-completion claim of `Conversation.Run` and the cannot-onboard-twice claim hold for a single call or for turns one after another. Each saved session is still one `Respond` step from the state it was loaded from, so `Dialogue.Inv` still holds.
- `find_relevant_context` and `get_llm_response`: embeddings, the FAISS index and the Gemini call. They are collapsed into the `QaOutcome` given with each message. `Failed` stands for an exception from either call, including an unconfigured model.
- `save_details_to_csv`: the file, the header, the timestamp and the session id. The model emits the name, email and phone of the row as `Lead`.
- `scrape.py`, which builds the knowledge base offline.
- Text.Strip: models `str.strip()` on the ASCII whitespace characters only. Python also strips Unicode spaces such as U+00A0 and U+2028.
- Text.Lower: models `str.lower()` on ASCII capitals only. Python also lower-cases non-ASCII letters.
- Validators.IsValidPhone: `\d` is the ASCII digits, while Python's `\d` also matches other Unicode decimal digits.
- Validators.IsValidPhone: the pattern is transcribed without the case where `$` matches just before a final line feed. The controller only validates stripped messages, and those never end in one (`Text.StrippedHasNoFinalNewline`).
- The scenario lemmas of `Conversation` are stated for any messages with the properties the test messages have: trimmed, a valid email and so on. The tests' literal names, addresses and questions are not instantiated, apart from "get started", "sign me up" and "yes".
- Completed visitors have no "no" branch. After onboarding, a "no" falls through to Q&A, because the flag is always down then. The model follows the code here.
- An onboarding trigger sent while the flag is up leaves the flag up (lines 163-165). From then on the flag is cleared only when the phone number completes onboarding (line 141). The model follows the code here.
- A Q&A failure gives only the fixed apology of line 182. No retrieved excerpt is shown as a fallback, and the session does not change: the flag is set only after a successful answer. The model follows the code here.

=== FILE: conversation.dfy ===
/** Whole conversations: chat() applied to a sequence of messages within
    one session, and the scenarios of test_app.py. */
module Conversation {
  import opened Wrappers
  import opened Text
  import opened Validators
  import opened Intent
  import opened Dialogue

  /** One request: the raw message and what Q&A would produce for it. */
  datatype Input = Input(raw: string, qa: QaOutcome)

  /** The session after a run, the replies in order, and the lead rows
      written in order. */
  datatype Trace = Trace(final: Option<Session>, responses: seq<Message>, leads: seq<Lead>)

  function LeadRows(l: Option<Lead>): seq<Lead> {
    match l
    case Some(x) => [x]
    case None => []
  }

  /** The messages of `inputs` sent one after the other to chat(). */
  function Run(session: Option<Session>, inputs: seq<Input>): (tr: Trace)
    ensures |tr.responses| == |inputs|
    ensures Done(session) ==> Done(tr.final)
    decreases |inputs|
  {
    if inputs == [] then
      Trace(session, [], [])
    else
      var t := Chat(session, inputs[0].raw, inputs[0].qa);
      After(t, Run(t.session, inputs[1..]))
  }

  /** The trace of a run whose first turn is `t` and whose remaining turns
      produced `tr`. */
  function After(t: Turn, tr: Trace): Trace {
    Trace(tr.final, [t.response] + tr.responses, LeadRows(t.lead) + tr.leads)
  }

  /** Every session a conversation reaches satisfies the invariant. */
  lemma {:induction false} RunPreservesReachable(session: Option<Session>, inputs: seq<Input>)
    requires Reachable(session)
    ensures Reachable(Run(session, inputs).final)
    decreases |inputs|
  {
    if inputs != [] {
      ChatPreservesReachable(session, inputs[0].raw, inputs[0].qa);
      RunPreservesReachable(Chat(session, inputs[0].raw, inputs[0].qa).session, inputs[1..]);
    }
  }

  /** A conversation writes one lead row if it completes the onboarding and
      none otherwise, never more than one; every row written is complete and
      valid. */
  lemma {:induction false} RunLeads(session: Option<Session>, inputs: seq<Input>)
    requires Reachable(session)
    ensures var tr := Run(session, inputs);
            && |tr.leads| == (if Done(tr.final) && !Done(session) then 1 else 0)
            && (forall l | l in tr.leads :: ValidLead(l))
    decreases |inputs|
  {
    if inputs != [] {
      var t := Chat(session, inputs[0].raw, inputs[0].qa);
      ChatLead(session, inputs[0].raw, inputs[0].qa);
      ChatPreservesReachable(session, inputs[0].raw, inputs[0].qa);
      RunLeads(t.session, inputs[1..]);
    }
  }

  /** Sending two batches of messages one after the other is sending their
      concatenation: the session carries over, replies and lead rows are
      joined in order. */
  lemma {:induction false} RunAppend(session: Option<Session>, xs: seq<Input>, ys: seq<Input>)
    ensures var first := Run(session, xs);
            var second := Run(first.final, ys);
            Run(session, xs + ys) == Trace(second.final, first.responses + second.responses, first.leads + second.leads)
    decreases |xs|
  {
    if xs == [] {
      EmptyPrefix(xs, ys);
    } else {
      var t := Chat(session, xs[0].raw, xs[0].qa);
      RunAppend(t.session, xs[1..], ys);
      SplitHead(xs, ys);
      RunStep(session, xs[0], xs[1..] + ys);
      RunStep(session, xs[0], xs[1..]);
      AfterJoin(t, Run(t.session, xs[1..]), Run(Run(t.session, xs[1..]).final, ys));
    }
  }

  /** Run unfolded at its first message. */
  lemma RunStep(session: Option<Session>, i: Input, rest: seq<Input>)
    ensures var t := Chat(session, i.raw, i.qa);
            Run(session, [i] + rest) == After(t, Run(t.session, rest))
  {
    HeadTail(i, rest);
  }

  lemma AfterJoin(t: Turn, first: Trace, second: Trace)
    ensures var joined := After(t, first);
            After(t, Trace(second.final, first.responses + second.responses, first.leads + second.leads))
            == Trace(second.final, joined.responses + second.responses, joined.leads + second.leads)
  {
    AppendAssoc([t.response], first.responses, second.responses);
    AppendAssoc(LeadRows(t.lead), first.leads, second.leads);
  }

  // ---------------------------------------------------------------------
  // Runs of a fixed length, turn by turn
  // ---------------------------------------------------------------------

  lemma RunOfFour(session: Option<Session>, i0: Input, i1: Input, i2: Input, i3: Input)
    ensures var t0 := Chat(session, i0.raw, i0.qa);
            var t1 := Chat(t0.session, i1.raw, i1.qa);
            var t2 := Chat(t1.session, i2.raw, i2.qa);
            var t3 := Chat(t2.session, i3.raw, i3.qa);
            Run(session, [i0, i1, i2, i3])
            == Trace(t3.session, [t0.response, t1.response, t2.response, t3.response],
                     LeadRows(t0.lead) + LeadRows(t1.lead) + LeadRows(t2.lead) + LeadRows(t3.lead))
  {
    var t0 := Chat(session, i0.raw, i0.qa);
    var t1 := Chat(t0.session, i1.raw, i1.qa);
    var t2 := Chat(t1.session, i2.raw, i2.qa);
    var t3 := Chat(t2.session, i3.raw, i3.qa);
    Cons3(i0, i1, i2, i3);
    RunStep(session, i0, [i1, i2, i3]);
    Cons2(i1, i2, i3);
    RunStep(t0.session, i1, [i2, i3]);
    Cons1(i2, i3);
    RunStep(t1.session, i2, [i3]);
    Cons0(i3);
    RunStep(t2.session, i3, []);
    AfterFour(t0, t1, t2, t3);
  }

  lemma RunOfFive(session: Option<Session>, i0: Input, i1: Input, i2: Input, i3: Input, i4: Input)
    ensures var t0 := Chat(session, i0.raw, i0.qa);
            var t1 := Chat(t0.session, i1.raw, i1.qa);
            var t2 := Chat(t1.session, i2.raw, i2.qa);
            var t3 := Chat(t2.session, i3.raw, i3.qa);
            var t4 := Chat(t3.session, i4.raw, i4.qa);
            Run(session, [i0, i1, i2, i3, i4])
            == Trace(t4.session, [t0.response, t1.response, t2.response, t3.response, t4.response],
                     LeadRows(t0.lead) + LeadRows(t1.lead) + LeadRows(t2.lead) + LeadRows(t3.lead) + LeadRows(t4.lead))
  {
    var t0 := Chat(session, i0.raw, i0.qa);
    var t1 := Chat(t0.session, i1.raw, i1.qa);
    var t2 := Chat(t1.session, i2.raw, i2.qa);
    var t3 := Chat(t2.session, i3.raw, i3.qa);
    var t4 := Chat(t3.session, i4.raw, i4.qa);
    Cons4(i0, i1, i2, i3, i4);
    RunStep(session, i0, [i1, i2, i3, i4]);
    RunOfFour(t0.session, i1, i2, i3, i4);
    AfterFive(t0, t1, t2, t3, t4);
  }

  // The sequence arithmetic of the fixed-length runs, kept apart from chat().

  lemma AfterTwo(t0: Turn, t1: Turn)
    ensures After(t0, After(t1, Trace(t1.session, [], [])))
            == Trace(t1.session, [t0.response, t1.response], LeadRows(t0.lead) + LeadRows(t1.lead))
  {
    assert [t0.response] + ([t1.response] + []) == [t0.response, t1.response];
    assert LeadRows(t1.lead) + [] == LeadRows(t1.lead);
  }

  lemma AfterFour(t0: Turn, t1: Turn, t2: Turn, t3: Turn)
    ensures After(t0, After(t1, After(t2, After(t3, Trace(t3.session, [], [])))))
            == Trace(t3.session, [t0.response, t1.response, t2.response, t3.response],
                     LeadRows(t0.lead) + LeadRows(t1.lead) + LeadRows(t2.lead) + LeadRows(t3.lead))
  {
    assert [t0.response] + ([t1.response] + ([t2.response] + ([t3.response] + [])))
           == [t0.response, t1.response, t2.response, t3.response];
    assert LeadRows(t0.lead) + (LeadRows(t1.lead) + (LeadRows(t2.lead) + (LeadRows(t3.lead) + [])))
           == LeadRows(t0.lead) + LeadRows(t1.lead) + LeadRows(t2.lead) + LeadRows(t3.lead);
  }

  lemma AfterFive(t0: Turn, t1: Turn, t2: Turn, t3: Turn, t4: Turn)
    ensures After(t0, Trace(t4.session, [t1.response, t2.response, t3.response, t4.response],
                            LeadRows(t1.lead) + LeadRows(t2.lead) + LeadRows(t3.lead) + LeadRows(t4.lead)))
            == Trace(t4.session, [t0.response, t1.response, t2.response, t3.response, t4.response],
                     LeadRows(t0.lead) + LeadRows(t1.lead) + LeadRows(t2.lead) + LeadRows(t3.lead) + LeadRows(t4.lead))
  {
    assert [t0.response] + [t1.response, t2.response, t3.response, t4.response]
           == [t0.response, t1.response, t2.response, t3.response, t4.response];
    assert LeadRows(t0.lead) + (LeadRows(t1.lead) + LeadRows(t2.lead) + LeadRows(t3.lead) + LeadRows(t4.lead))
           == LeadRows(t0.lead) + LeadRows(t1.lead) + LeadRows(t2.lead) + LeadRows(t3.lead) + LeadRows(t4.lead);
  }

  lemma HeadTail<T>(i: T, rest: seq<T>)
    ensures ([i] + rest)[0] == i && ([i] + rest)[1..] == rest
  {
  }

  lemma SplitHead<T>(xs: seq<T>, ys: seq<T>)
    requires xs != []
    ensures [xs[0]] + (xs[1..] + ys) == xs + ys && [xs[0]] + xs[1..] == xs
  {
  }

  lemma EmptyPrefix<T>(xs: seq<T>, ys: seq<T>)
    requires xs == []
    ensures xs + ys == ys
  {
  }

  lemma AppendAssoc<T>(a: seq<T>, b: seq<T>, c: seq<T>)
    ensures a + (b + c) == (a + b) + c
  {
  }

  lemma Cons0<T>(h: T)
    ensures [h] + [] == [h]
  {
  }

  lemma Cons1<T>(h: T, x: T)
    ensures [h] + [x] == [h, x]
  {
  }

  lemma Cons2<T>(h: T, x: T, y: T)
    ensures [h] + [x, y] == [h, x, y]
  {
  }

  lemma Cons3<T>(h: T, x: T, y: T, z: T)
    ensures [h] + [x, y, z] == [h, x, y, z]
  {
  }

  lemma Cons4<T>(h: T, w: T, x: T, y: T, z: T)
    ensures [h] + [w, x, y, z] == [h, w, x, y, z]
  {
  }

  /** The lead rows of a run whose only completing turn is the last. */
  lemma OnlyLastRow(l: Lead)
    ensures LeadRows(None) + LeadRows(None) + LeadRows(None) + LeadRows(Some(l)) == [l]
    ensures LeadRows(None) + LeadRows(None) + LeadRows(None) + LeadRows(None) + LeadRows(Some(l)) == [l]
  {
  }

  // ---------------------------------------------------------------------
  // Scenarios
  // ---------------------------------------------------------------------

  /** A fresh session sent a message that asks to onboard, then a name, a
      valid email and a valid phone number, completes and writes exactly
      that lead row. The name must survive stripping unchanged, and so must
      the email; a valid phone number consists of digits and `+` only. The
      Q&A outcome is never consulted. */
  lemma OnboardingFromTrigger(trigger: string, name: string, email: string, phone: string, qa: QaOutcome)
    requires Trimmed(trigger) && WantsOnboarding(trigger)
    requires Trimmed(name) && Trimmed(email) && IsValidEmail(email) && IsValidPhone(phone)
    ensures Run(None, [Input(trigger, qa), Input(name, qa), Input(email, qa), Input(phone, qa)])
            == Trace(Some(Session(Complete, map[Name := name, Email := email, Phone := phone], false)),
                     [AskName, AskEmail(FirstWord(name)), AskPhone, AllSet], [Lead(Some(name), Some(email), Some(phone))])
  {
    TriggerTurn(trigger, qa);
    NameTurn(name, qa);
    EmailTurn(name, email, qa);
    PhoneTurn(name, email, phone, qa);
    RunOfFour(None, Input(trigger, qa), Input(name, qa), Input(email, qa), Input(phone, qa));
    OnlyLastRow(Lead(Some(name), Some(email), Some(phone)));
  }

  /** The same conversation opened with "get started", as in test_app.py. */
  lemma OnboardingGetStarted(name: string, email: string, phone: string, qa: QaOutcome)
    requires Trimmed(name) && Trimmed(email) && IsValidEmail(email) && IsValidPhone(phone)
    ensures Run(None, [Input("get started", qa), Input(name, qa), Input(email, qa), Input(phone, qa)])
            == Trace(Some(Session(Complete, map[Name := name, Email := email, Phone := phone], false)),
                     [AskName, AskEmail(FirstWord(name)), AskPhone, AllSet], [Lead(Some(name), Some(email), Some(phone))])
  {
    GetStartedIsTrigger();
    OnboardingFromTrigger("get started", name, email, phone, qa);
  }

  /** Q&A answers every message with `answer`. A fresh session asks a
      question that is no onboarding request and gets the answer with the
      nudge appended; a "yes" then starts the onboarding, which the name, a
      valid email and a valid phone number complete. */
  lemma NudgeThenOnboarding(question: string, answer: string, yes: string, name: string, email: string, phone: string)
    requires Trimmed(question) && !WantsOnboarding(question)
    requires Trimmed(yes) && InterpretYesNo(yes) == Some(Yes)
    requires Trimmed(name) && Trimmed(email) && IsValidEmail(email) && IsValidPhone(phone)
    ensures var qa := Answered(answer);
            Run(None, [Input(question, qa), Input(yes, qa), Input(name, qa), Input(email, qa), Input(phone, qa)])
            == Trace(Some(Session(Complete, map[Name := name, Email := email, Phone := phone], false)),
                     [Nudged(answer), AskName, AskEmail(FirstWord(name)), AskPhone, AllSet],
                     [Lead(Some(name), Some(email), Some(phone))])
  {
    var qa := Answered(answer);
    QuestionTurn(question, answer);
    YesTurn(yes, qa);
    NameTurn(name, qa);
    EmailTurn(name, email, qa);
    PhoneTurn(name, email, phone, qa);
    RunOfFive(None, Input(question, qa), Input(yes, qa), Input(name, qa), Input(email, qa), Input(phone, qa));
    OnlyLastRow(Lead(Some(name), Some(email), Some(phone)));
  }

  /** After onboarding, a question is answered without the nudge and leaves
      the session as it was, and a request to onboard again is turned away;
      no further lead row is written. */
  lemma CompletedStaysComplete(s: Session, question: string, answer: string, request: string, qa: QaOutcome)
    requires Inv(s) && s.stage == Complete
    requires Trimmed(question) && !WantsOnboarding(question) && InterpretYesNo(question) != Some(Yes)
    requires Trimmed(request) && WantsOnboarding(request)
    ensures Run(Some(s), [Input(question, Answered(answer)), Input(request, qa)])
            == Trace(Some(s), [Answer(answer), AlreadyDone], [])
  {
    var i0, i1 := Input(question, Answered(answer)), Input(request, qa);
    CompletedQuestionTurn(s, question, answer);
    CompletedRequestTurn(s, request, qa);
    Cons1(i0, i1);
    RunStep(Some(s), i0, [i1]);
    Cons0(i1);
    RunStep(Some(s), i1, []);
    AfterTwo(Turn(Some(s), Answer(answer), None), Turn(Some(s), AlreadyDone, None));
  }

  /** The only-once scenario of test_app.py: onboarding started with "get
      started", then a question and a second "sign me up", Q&A answering
      every message with `answer`. The two later messages change nothing,
      the question's answer carries no nudge, and the one lead row stays
      the only one. */
  lemma OnboardOnlyOnce(name: string, email: string, phone: string, question: string, answer: string)
    requires Trimmed(name) && Trimmed(email) && IsValidEmail(email) && IsValidPhone(phone)
    requires Trimmed(question) && !WantsOnboarding(question) && InterpretYesNo(question) != Some(Yes)
    ensures var qa := Answered(answer);
            var onboarding := [Input("get started", qa), Input(name, qa), Input(email, qa), Input(phone, qa)];
            var later := [Input(question, qa), Input("sign me up", qa)];
            Run(None, onboarding + later)
            == Trace(Some(Session(Complete, map[Name := name, Email := email, Phone := phone], false)),
                     [AskName, AskEmail(FirstWord(name)), AskPhone, AllSet] + [Answer(answer), AlreadyDone],
                     [Lead(Some(name), Some(email), Some(phone))])
  {
    var qa := Answered(answer);
    var onboarding := [Input("get started", qa), Input(name, qa), Input(email, qa), Input(phone, qa)];
    var later := [Input(question, qa), Input("sign me up", qa)];
    var c := Session(Complete, map[Name := name, Email := email, Phone := phone], false);
    OnboardingGetStarted(name, email, phone, qa);
    SignMeUpIsTrigger();
    CompletedInv(name, email, phone);
    CompletedStaysComplete(c, question, answer, "sign me up", qa);
    RunAppend(None, onboarding, later);
    NoMoreRows(Lead(Some(name), Some(email), Some(phone)));
  }

  lemma NoMoreRows(l: Lead)
    ensures [l] + [] == [l]
  {
  }

  /** The session onboarding leaves behind satisfies the invariant. */
  lemma CompletedInv(name: string, email: string, phone: string)
    requires Trimmed(name) && Trimmed(email) && IsValidEmail(email) && IsValidPhone(phone)
    ensures Inv(Session(Complete, map[Name := name, Email := email, Phone := phone], false))
  {
    PhoneIsTrimmed(phone);
  }

  // ---------------------------------------------------------------------
  // Single turns of the scenarios
  // ---------------------------------------------------------------------

  lemma TriggerTurn(trigger: string, qa: QaOutcome)
    requires Trimmed(trigger) && WantsOnboarding(trigger)
    ensures Chat(None, trigger, qa) == Turn(Some(Session(AwaitingName, map[], false)), AskName, None)
  {
    TrimmedIsStripped(trigger);
  }

  /** A question to a fresh session: answered, nudged, flag raised. */
  lemma QuestionTurn(question: string, answer: string)
    requires Trimmed(question) && !WantsOnboarding(question)
    ensures Chat(None, question, Answered(answer)) == Turn(Some(Session(Idle, map[], true)), Nudged(answer), None)
  {
    TrimmedIsStripped(question);
  }

  /** "yes" to the nudge in a fresh session. */
  lemma YesTurn(yes: string, qa: QaOutcome)
    requires Trimmed(yes) && InterpretYesNo(yes) == Some(Yes)
    ensures Chat(Some(Session(Idle, map[], true)), yes, qa) == Turn(Some(Session(AwaitingName, map[], false)), AskName, None)
  {
    TrimmedIsStripped(yes);
  }

  /** A question from a completed user: answered without the nudge. */
  lemma CompletedQuestionTurn(s: Session, question: string, answer: string)
    requires Inv(s) && s.stage == Complete
    requires Trimmed(question) && !WantsOnboarding(question) && InterpretYesNo(question) != Some(Yes)
    ensures Chat(Some(s), question, Answered(answer)) == Turn(Some(s), Answer(answer), None)
  {
    TrimmedIsStripped(question);
  }

  /** A second onboarding request from a completed user: turned away. */
  lemma CompletedRequestTurn(s: Session, request: string, qa: QaOutcome)
    requires s.stage == Complete
    requires Trimmed(request) && WantsOnboarding(request)
    ensures Chat(Some(s), request, qa) == Turn(Some(s), AlreadyDone, None)
  {
    TrimmedIsStripped(request);
  }

  lemma NameTurn(name: string, qa: QaOutcome)
    requires Trimmed(name)
    ensures Chat(Some(Session(AwaitingName, map[], false)), name, qa)
            == Turn(Some(Session(AwaitingEmail, map[Name := name], false)), AskEmail(FirstWord(name)), None)
  {
    TrimmedIsStripped(name);
  }

  lemma EmailTurn(name: string, email: string, qa: QaOutcome)
    requires Trimmed(email) && IsValidEmail(email)
    ensures Chat(Some(Session(AwaitingEmail, map[Name := name], false)), email, qa)
            == Turn(Some(Session(AwaitingPhone, map[Name := name, Email := email], false)), AskPhone, None)
  {
    TrimmedIsStripped(email);
  }

  lemma PhoneTurn(name: string, email: string, phone: string, qa: QaOutcome)
    requires IsValidPhone(phone)
    ensures Chat(Some(Session(AwaitingPhone, map[Name := name, Email := email], false)), phone, qa)
            == Turn(Some(Session(Complete, map[Name := name, Email := email, Phone := phone], false)),
                    AllSet, Some(Lead(Some(name), Some(email), Some(phone))))
  {
    PhoneIsTrimmed(phone);
    TrimmedIsStripped(phone);
  }

  /** A valid phone number has no spaces, so chat() passes it on as is. */
  lemma PhoneIsTrimmed(phone: string)
    requires IsValidPhone(phone)
    ensures Trimmed(phone)
  {
    PhoneClosedForm(phone);
    var d := PhoneDigits(phone);
    assert IsDigit(d[|d| - 1]);
    assert phone[|phone| - 1] == d[|d| - 1];
  }
}

=== FILE: dialogue.dfy ===
/** The per-message dialogue controller, the body of `chat()` in app.py, as a
    pure transition function. The Flask session becomes an explicit
    `Option<Session>` value (None until the first non-empty message), the
    retrieval-and-generation call becomes the oracle outcome `qa`, and the
    row appended to the lead file becomes the emitted `Lead`. */
module Dialogue {
  import opened Wrappers
  import opened Text
  import opened Validators
  import opened Intent

  /** session['onboarding_state'] */
  datatype Stage = Idle | AwaitingName | AwaitingEmail | AwaitingPhone | Complete

  /** The keys of session['user_data'] */
  datatype Field = Name | Email | Phone

  /** The three session entries chat() keeps per conversation. */
  datatype Session = Session(stage: Stage, userData: map<Field, string>, awaitingConfirmation: bool)

  /** The row save_details_to_csv writes: each column is `data.get(key)`,
      so a missing key would be written as None. The timestamp and the
      session id are left out. */
  datatype Lead = Lead(name: Option<string>, email: Option<string>, phone: Option<string>)

  /** What find_relevant_context followed by get_llm_response produced: the
      model's answer text, or an exception of either call. */
  datatype QaOutcome = Answered(text: string) | Failed

  /** The replies chat() gives, by kind; Render spells out their text. */
  datatype Message =
    | EmptyPrompt
    | AskName
    | AskEmail(first: string)
    | BadEmail
    | AskPhone
    | BadPhone
    | AllSet
    | AlreadyDone
    | NoProblem
    | Trouble
    | Answer(text: string)
    | Nudged(text: string)

  /** The session update, reply and lead row of one turn past the empty
      check. */
  datatype Reply = Reply(next: Session, response: Message, lead: Option<Lead>)

  /** One whole call of chat(): the session afterwards (still None when the
      message was empty and no session existed), the reply and the lead. */
  datatype Turn = Turn(session: Option<Session>, response: Message, lead: Option<Lead>)

  /** The sentence appended to a Q&A answer for a user not yet onboarded. */
  const NudgeText := "\n\n" + NudgeQuestion + " with our onboarding process?"

  /** The words test_app.py looks for to tell whether a reply nudges. */
  const NudgeQuestion := "Would you like to get started"

  /** The text of each reply, as chat() returns it in the `response` field. */
  function Render(m: Message): string {
    match m
    case EmptyPrompt => "Please provide a message."
    case AskName => "Great! Let's get started. What's your full name?"
    case AskEmail(first) => "Thanks, " + first + "! What's your email address?"
    case BadEmail => "That doesn't look like a valid email. Could you please try again?"
    case AskPhone => "Got it. And finally, what's a good phone number?"
    case BadPhone => "That phone number doesn't look valid. Please try again."
    case AllSet => "Perfect, you're all set! We'll be in touch soon. Can I help with anything else?"
    case AlreadyDone => "It looks like you've already completed the onboarding process. How else can I help you today?"
    case NoProblem => "No problem. Is there anything else I can help you with?"
    case Trouble => "I'm having some trouble connecting right now. Please try again in a moment."
    case Answer(text) => text
    case Nudged(text) => text + NudgeText
  }

  /** A Q&A reply carries the answer text unchanged at its start; the nudged
      form then contains the nudge question, the plain form is the answer
      alone. */
  lemma RenderedAnswer(answer: string)
    ensures |Render(Nudged(answer))| > |answer| && Render(Nudged(answer))[..|answer|] == answer
    ensures Contains(Render(Nudged(answer)), NudgeQuestion)
    ensures Render(Answer(answer)) == answer
  {
    var r := Render(Nudged(answer));
    var n := |NudgeQuestion|;
    assert r == answer + NudgeText;
    assert NudgeText[2..2 + n] == NudgeQuestion by {
      Middle("\n\n", NudgeQuestion, " with our onboarding process?");
    }
    Shifted(answer, NudgeText, 2, 2 + n);
    assert OccursAt(r, NudgeQuestion, |answer| + 2);
  }

  /** The middle piece of a three-part concatenation. */
  lemma Middle<T>(a: seq<T>, b: seq<T>, c: seq<T>)
    ensures (a + b + c)[|a|..|a| + |b|] == b
  {
  }

  /** Slices of the second half of a concatenation, and its first half. */
  lemma Shifted<T>(a: seq<T>, b: seq<T>, i: nat, j: nat)
    requires i <= j <= |b|
    ensures (a + b)[..|a|] == a
    ensures (a + b)[|a| + i..|a| + j] == b[i..j]
  {
  }

  /** The session chat() creates on the first non-empty message. */
  const Fresh := Session(Idle, map[], false)

  /** Position of a stage along the onboarding pass. */
  function Rank(st: Stage): nat {
    match st
    case Idle => 0
    case AwaitingName => 1
    case AwaitingEmail => 2
    case AwaitingPhone => 3
    case Complete => 4
  }

  /** The field a collecting stage stores the message under. */
  function Collects(st: Stage): Option<Field> {
    match st
    case AwaitingName => Some(Name)
    case AwaitingEmail => Some(Email)
    case AwaitingPhone => Some(Phone)
    case _ => None
  }

  function Get(m: map<Field, string>, f: Field): Option<string> {
    if f in m then Some(m[f]) else None
  }

  function LeadOf(data: map<Field, string>): Lead {
    Lead(Get(data, Name), Get(data, Email), Get(data, Phone))
  }

  /** chat() from the read of the session state (line 121) to the choice of
      the reply, for a non-empty stripped message. */
  function Respond(s: Session, msg: string, qa: QaOutcome): (r: Reply)
    // The stage never moves back and never skips a stage.
    ensures Rank(r.next.stage) == Rank(s.stage) || Rank(r.next.stage) == Rank(s.stage) + 1
    ensures s.stage == Complete ==> r.next.stage == Complete
    // A lead row is written exactly on the step that finishes onboarding.
    ensures r.lead.Some? <==> s.stage == AwaitingPhone && r.next.stage == Complete
    ensures r.lead.Some? ==> r.lead.value == LeadOf(r.next.userData)
    // The collected data changes only by storing the message under the field
    // the current stage collects, and only together with advancing.
    ensures r.next.userData == s.userData
            || (&& Collects(s.stage).Some?
                && r.next.userData == s.userData[Collects(s.stage).value := msg]
                && Rank(r.next.stage) == Rank(s.stage) + 1)
  {
    match s.stage
    case AwaitingName =>
      Reply(s.(userData := s.userData[Name := msg], stage := AwaitingEmail),
            AskEmail(FirstWord(msg)), None)
    case AwaitingEmail =>
      if IsValidEmail(msg) then
        Reply(s.(userData := s.userData[Email := msg], stage := AwaitingPhone), AskPhone, None)
      else
        Reply(s, BadEmail, None)
    case AwaitingPhone =>
      if IsValidPhone(msg) then
        var data := s.userData[Phone := msg];
        Reply(Session(Complete, data, false), AllSet, Some(LeadOf(data)))
      else
        Reply(s, BadPhone, None)
    case _ =>
      Converse(s, msg, qa)
  }

  /** The `else` branch of chat() (lines 148-182): the stage is Idle or
      Complete. The message is classified once; chat() calls
      interpret_yes_no up to three times on the same message, always with
      the same result. */
  function Converse(s: Session, msg: string, qa: QaOutcome): (r: Reply)
    requires s.stage == Idle || s.stage == Complete
    ensures r.lead == None && r.next.userData == s.userData
    ensures r.next.stage == s.stage || (s.stage == Idle && r.next.stage == AwaitingName)
  {
    ConverseOn(s, msg, InterpretYesNo(msg), qa)
  }

  /** The branches of lines 150-182, given the message's yes/no answer. */
  function ConverseOn(s: Session, msg: string, answer: Option<YesNo>, qa: QaOutcome): (r: Reply)
    requires s.stage == Idle || s.stage == Complete
    ensures r.lead == None && r.next.userData == s.userData
    ensures r.next.stage == s.stage || (s.stage == Idle && r.next.stage == AwaitingName)
  {
    if s.stage == Complete && (WantsOnboarding(msg) || answer == Some(Yes)) then
      Reply(s, AlreadyDone, None)
    else if s.awaitingConfirmation && answer == Some(Yes) then
      Reply(s.(awaitingConfirmation := false, stage := AwaitingName), AskName, None)
    else if s.awaitingConfirmation && answer == Some(No) then
      Reply(s.(awaitingConfirmation := false), NoProblem, None)
    else if WantsOnboarding(msg) then
      Reply(s.(stage := AwaitingName), AskName, None)
    else
      match qa
      case Failed => Reply(s, Trouble, None)
      case Answered(text) =>
        if s.stage != Complete then
          Reply(s.(awaitingConfirmation := true), Nudged(text), None)
        else
          Reply(s.(awaitingConfirmation := false), Answer(text), None)
  }

  /** chat() as a whole: strip the message, answer an empty one without
      touching (or creating) the session, otherwise create the session if
      needed and respond. */
  function Chat(session: Option<Session>, raw: string, qa: QaOutcome): (t: Turn)
    ensures AllSpace(raw) ==> t == Turn(session, EmptyPrompt, None)
    ensures !AllSpace(raw) ==> t.session.Some?
    ensures Done(session) ==> Done(t.session)
  {
    var msg := Strip(raw);
    if msg == [] then
      Turn(session, EmptyPrompt, None)
    else
      var r := Respond(session.GetOr(Fresh), msg, qa);
      Turn(Some(r.next), r.response, r.lead)
  }

  // ---------------------------------------------------------------------
  // The invariant of every session chat() can produce
  // ---------------------------------------------------------------------

  /** The fields collected so far are exactly those of the stages already
      passed, each stored as a stripped non-empty message; the stored email
      and phone passed their validators; and a completed user is never
      awaiting a reply to the nudge. */
  predicate Inv(s: Session) {
    && (forall f | f in s.userData :: Trimmed(s.userData[f]))
    && match s.stage
       case Idle => s.userData.Keys == {}
       case AwaitingName => s.userData.Keys == {}
       case AwaitingEmail => s.userData.Keys == {Name}
       case AwaitingPhone => s.userData.Keys == {Name, Email} && IsValidEmail(s.userData[Email])
       case Complete =>
         && s.userData.Keys == {Name, Email, Phone}
         && IsValidEmail(s.userData[Email]) && IsValidPhone(s.userData[Phone])
         && !s.awaitingConfirmation
  }

  predicate Reachable(session: Option<Session>) {
    session.None? || Inv(session.value)
  }

  /** A lead row with all three columns filled, the email and phone valid. */
  predicate ValidLead(l: Lead) {
    && l.name.Some? && Trimmed(l.name.value)
    && l.email.Some? && IsValidEmail(l.email.value)
    && l.phone.Some? && IsValidPhone(l.phone.value)
  }

  lemma RespondPreservesInv(s: Session, msg: string, qa: QaOutcome)
    requires Inv(s) && Trimmed(msg)
    ensures Inv(Respond(s, msg, qa).next)
  {
    match s.stage
    case Idle =>
      assert Respond(s, msg, qa) == Converse(s, msg, qa);
    case Complete =>
      CompleteNeverNudged(s, msg, qa);
      assert Respond(s, msg, qa) == Converse(s, msg, qa);
    case AwaitingName =>
      NameAlwaysAccepted(s, msg, qa);
    case AwaitingEmail =>
      EmailStep(s, msg, qa);
    case AwaitingPhone =>
      PhoneStep(s, msg, qa);
  }

  /** The lead row written on completion holds the name and email collected
      earlier and the phone number just given, all valid. */
  lemma LeadIsComplete(s: Session, msg: string, qa: QaOutcome)
    requires Inv(s) && Trimmed(msg)
    requires Respond(s, msg, qa).lead.Some?
    ensures var l := Respond(s, msg, qa).lead.value;
            && ValidLead(l)
            && l == Lead(Some(s.userData[Name]), Some(s.userData[Email]), Some(msg))
  {
  }

  /** A completed user is never left awaiting a reply to the nudge, so the
      nudge sentence is never offered to it again. */
  lemma FlagOnlyBeforeCompletion(s: Session)
    requires Inv(s)
    ensures s.awaitingConfirmation ==> s.stage != Complete
  {
  }

  // ---------------------------------------------------------------------
  // Field collection (lines 126-145)
  // ---------------------------------------------------------------------

  /** Any message is accepted as the name. */
  lemma NameAlwaysAccepted(s: Session, msg: string, qa: QaOutcome)
    requires s.stage == AwaitingName
    ensures var r := Respond(s, msg, qa);
            && r.next == s.(stage := AwaitingEmail, userData := s.userData[Name := msg])
            && r.response == AskEmail(FirstWord(msg)) && r.lead == None
  {
  }

  /** An address the validator rejects changes nothing; one it accepts is
      stored and the phone is asked for next. */
  lemma EmailStep(s: Session, msg: string, qa: QaOutcome)
    requires s.stage == AwaitingEmail
    ensures var r := Respond(s, msg, qa);
            && (!IsValidEmail(msg) ==> r == Reply(s, BadEmail, None))
            && (IsValidEmail(msg) ==> r.next == s.(stage := AwaitingPhone, userData := s.userData[Email := msg])
                                      && r.response == AskPhone && r.lead == None)
  {
  }

  /** A number the validator rejects changes nothing; one it accepts
      completes the onboarding, clears the nudge flag and writes the lead. */
  lemma PhoneStep(s: Session, msg: string, qa: QaOutcome)
    requires s.stage == AwaitingPhone
    ensures var r := Respond(s, msg, qa);
            && (!IsValidPhone(msg) ==> r == Reply(s, BadPhone, None))
            && (IsValidPhone(msg) ==> && r.next == Session(Complete, s.userData[Phone := msg], false)
                                      && r.response == AllSet
                                      && r.lead == Some(LeadOf(s.userData[Phone := msg])))
  {
  }

  // ---------------------------------------------------------------------
  // Nudge replies, onboarding requests and Q&A (lines 148-182)
  // ---------------------------------------------------------------------

  /** "yes" to the nudge starts the onboarding and clears the flag. Outside
      the collecting stages the flag is only ever up while the stage is
      Idle. */
  lemma NudgeAccepted(s: Session, msg: string, qa: QaOutcome)
    requires Inv(s) && (s.stage == Idle || s.stage == Complete) && s.awaitingConfirmation
    requires InterpretYesNo(msg) == Some(Yes)
    ensures Respond(s, msg, qa) == Reply(s.(stage := AwaitingName, awaitingConfirmation := false), AskName, None)
  {
    assert s.stage == Idle;
    ConverseYes(s, msg, InterpretYesNo(msg), qa);
  }

  /** "no" to the nudge only clears the flag. */
  lemma NudgeDeclined(s: Session, msg: string, qa: QaOutcome)
    requires Inv(s) && (s.stage == Idle || s.stage == Complete) && s.awaitingConfirmation
    requires InterpretYesNo(msg) == Some(No)
    ensures Respond(s, msg, qa) == Reply(s.(awaitingConfirmation := false), NoProblem, None)
  {
    assert s.stage == Idle;
    ConverseNo(s, msg, InterpretYesNo(msg), qa);
  }

  /** The nudge replies of ConverseOn, whatever the message, once the answer
      it was classified as is known. */
  lemma ConverseYes(s: Session, msg: string, answer: Option<YesNo>, qa: QaOutcome)
    requires s.stage == Idle && s.awaitingConfirmation && answer == Some(Yes)
    ensures ConverseOn(s, msg, answer, qa) == Reply(s.(stage := AwaitingName, awaitingConfirmation := false), AskName, None)
  {
  }

  lemma ConverseNo(s: Session, msg: string, answer: Option<YesNo>, qa: QaOutcome)
    requires s.stage == Idle && s.awaitingConfirmation && answer == Some(No)
    ensures ConverseOn(s, msg, answer, qa) == Reply(s.(awaitingConfirmation := false), NoProblem, None)
  {
  }

  /** An explicit onboarding request starts the onboarding and, unlike the
      nudge's "yes", leaves the flag as it was. */
  lemma OnboardingRequested(s: Session, msg: string, qa: QaOutcome)
    requires s.stage == Idle && WantsOnboarding(msg)
    requires s.awaitingConfirmation ==> InterpretYesNo(msg) == None
    ensures Respond(s, msg, qa) == Reply(s.(stage := AwaitingName), AskName, None)
  {
  }

  /** A completed user who asks to onboard again, or says "yes", is told it
      is done already; nothing changes. */
  lemma NoSecondOnboarding(s: Session, msg: string, qa: QaOutcome)
    requires s.stage == Complete
    requires WantsOnboarding(msg) || InterpretYesNo(msg) == Some(Yes)
    ensures Respond(s, msg, qa) == Reply(s, AlreadyDone, None)
  {
  }

  /** A completed visitor is never nudged: whatever the message and
      whatever Q&A produces, the reply carries no nudge and the flag stays
      down. */
  lemma CompleteNeverNudged(s: Session, msg: string, qa: QaOutcome)
    requires Inv(s) && s.stage == Complete
    ensures var r := Respond(s, msg, qa);
            !r.response.Nudged? && !r.next.awaitingConfirmation && r.next.stage == Complete
  {
  }

  /** A message that is neither an onboarding request, nor a reply the
      current state listens for, goes to Q&A. An answer is passed on, with
      the nudge appended and the flag raised unless the user has completed
      onboarding; a failure gives the fixed apology and changes nothing. */
  lemma QuestionAnswered(s: Session, msg: string, qa: QaOutcome)
    requires Inv(s) && (s.stage == Idle || s.stage == Complete)
    requires !WantsOnboarding(msg)
    requires s.stage == Complete ==> InterpretYesNo(msg) != Some(Yes)
    requires s.awaitingConfirmation ==> InterpretYesNo(msg) == None
    ensures var r := Respond(s, msg, qa);
            && r.lead == None && r.next.stage == s.stage && r.next.userData == s.userData
            && (qa.Failed? ==> r == Reply(s, Trouble, None))
            && (qa.Answered? ==>
                  && r.next.awaitingConfirmation == (s.stage != Complete)
                  && r.response == (if s.stage != Complete then Nudged(qa.text) else Answer(qa.text)))
  {
  }

  // ---------------------------------------------------------------------
  // Whole turns
  // ---------------------------------------------------------------------

  lemma {:induction false} ChatPreservesReachable(session: Option<Session>, raw: string, qa: QaOutcome)
    requires Reachable(session)
    ensures Reachable(Chat(session, raw, qa).session)
  {
    var msg := Strip(raw);
    if msg != [] {
      TrimmedIsStripped(raw);
      RespondPreservesInv(session.GetOr(Fresh), msg, qa);
    }
  }

  /** A turn writes a lead row exactly when it takes the session into
      Complete, and the row is then fully valid. */
  lemma {:induction false} ChatLead(session: Option<Session>, raw: string, qa: QaOutcome)
    requires Reachable(session)
    ensures var t := Chat(session, raw, qa);
            && (t.lead.Some? <==> (Done(t.session) && !Done(session)))
            && (t.lead.Some? ==> ValidLead(t.lead.value))
  {
    var msg := Strip(raw);
    if msg != [] {
      TrimmedIsStripped(raw);
      RespondLead(session.GetOr(Fresh), msg, qa);
    }
  }

  /** Respond writes a lead row exactly when it completes the onboarding,
      and the row is then fully valid. */
  lemma RespondLead(s: Session, msg: string, qa: QaOutcome)
    requires Inv(s) && Trimmed(msg)
    ensures var r := Respond(s, msg, qa);
            && (r.lead.Some? <==> (r.next.stage == Complete && s.stage != Complete))
            && (r.lead.Some? ==> ValidLead(r.lead.value))
  {
    if Respond(s, msg, qa).lead.Some? {
      LeadIsComplete(s, msg, qa);
    }
  }

  predicate Done(session: Option<Session>) {
    session.Some? && session.value.stage == Complete
  }
}

=== FILE: intent.dfy ===
/** The two keyword classifiers of app.py: `wants_onboarding`, a
    case-insensitive substring test against six trigger phrases, and
    `interpret_yes_no`, an exact match of the stripped, lower-cased message
    against two closed word lists. */
module Intent {
  import opened Wrappers
  import opened Text

  const OnboardingTriggers: seq<string> :=
    ["start onboarding", "sign me up", "get started", "work with you", "register", "onboard"]

  /** wants_onboarding: some trigger phrase occurs in the lower-cased message. */
  predicate WantsOnboarding(message: string) {
    exists t | 0 <= t < |OnboardingTriggers| :: Contains(Lower(message), OnboardingTriggers[t])
  }

  /** Text added before or after a message never withdraws an onboarding
      request, however unrelated it is. */
  lemma WantsOnboardingExtend(p: string, message: string, q: string)
    requires WantsOnboarding(message)
    ensures WantsOnboarding(p + message + q)
  {
    var t :| 0 <= t < |OnboardingTriggers| && Contains(Lower(message), OnboardingTriggers[t]);
    LowerAppend(p, message);
    LowerAppend(p + message, q);
    ContainsExtend(Lower(message), OnboardingTriggers[t], Lower(p), Lower(q));
    assert Contains(Lower(p + message + q), OnboardingTriggers[t]);
  }

  /** Case does not matter to the trigger test. */
  lemma WantsOnboardingIgnoresCase(message: string)
    ensures WantsOnboarding(Lower(message)) == WantsOnboarding(message)
  {
    LowerIdempotent(message);
  }

  /** The two answers interpret_yes_no can give besides None. */
  datatype YesNo = Yes | No

  const YesWords: seq<string> :=
    ["yes", "y", "yeah", "yep", "sure", "ok", "okay", "please", "go ahead"]

  const NoWords: seq<string> :=
    ["no", "n", "nope", "nah", "not now", "later"]

  /** The normalised form interpret_yes_no compares against its word lists. */
  function Normalise(message: string): string {
    Lower(Strip(message))
  }

  /** The word-list lookup of interpret_yes_no: "yes" for a yes word,
      otherwise "no" for a no word, otherwise None. */
  function Classify(m: string): Option<YesNo> {
    if m in YesWords then Some(Yes)
    else if m in NoWords then Some(No)
    else None
  }

  /** interpret_yes_no: the lookup applied to the normalised message. */
  function InterpretYesNo(message: string): Option<YesNo> {
    Classify(Normalise(message))
  }

  /** No word is on both lists. */
  lemma YesNoDisjoint()
    ensures forall w :: w in YesWords ==> w !in NoWords
  {
  }

  /** Each answer is given exactly on its own word list: since the lists are
      disjoint, checking the yes list first loses no "no" reply. */
  lemma InterpretYesNoExact(message: string)
    ensures InterpretYesNo(message) == Some(Yes) <==> Normalise(message) in YesWords
    ensures InterpretYesNo(message) == Some(No) <==> Normalise(message) in NoWords
    ensures InterpretYesNo(message) == None <==> Normalise(message) !in YesWords + NoWords
  {
    YesNoDisjoint();
  }

  /** The answer depends on nothing but the normalised message; surrounding
      spaces and letter case are ignored. */
  lemma InterpretYesNoNormalised(message: string)
    ensures InterpretYesNo(Normalise(message)) == InterpretYesNo(message)
  {
    var n := Normalise(message);
    NormaliseIdempotent(message);
    assert Normalise(n) == n;
  }

  lemma NormaliseIdempotent(message: string)
    ensures Normalise(Normalise(message)) == Normalise(message)
  {
    var m := Strip(message);
    var l := Lower(m);
    assert Strip(m) == m by { StripIdempotent(message); }
    assert Strip(l) == l by { StripOfLowerStripped(m); }
    assert Lower(l) == l by { LowerIdempotent(m); }
  }

  /** Lower-casing keeps every space a space and every non-space a non-space,
      so it commutes with stripping on an already stripped string. */
  lemma StripOfLowerStripped(m: string)
    requires Strip(m) == m
    ensures Strip(Lower(m)) == Lower(m)
  {
    if m != [] {
      TrimmedIsStripped(m);
      LowerKeepsTrimmed(m);
      TrimmedIsStripped(Lower(m));
    }
  }

  /** A trimmed word without capitals is its own normal form. */
  lemma PlainNormalised(m: string)
    requires forall c :: c in m ==> !IsUpper(c)
    requires Trimmed(m)
    ensures Normalise(m) == m
  {
    PlainWord(m);
  }

  /** The trigger phrase the test scenarios use. */
  lemma GetStartedIsTrigger()
    ensures Trimmed("get started")
    ensures WantsOnboarding("get started")
    ensures InterpretYesNo("get started") == None
  {
    var m := "get started";
    assert Trimmed(m);
    PlainNormalised(m);
    assert Classify(m) == None;
    assert OccursAt(Lower(m), OnboardingTriggers[2], 0);
  }

  lemma SignMeUpIsTrigger()
    ensures Trimmed("sign me up")
    ensures WantsOnboarding("sign me up")
    ensures InterpretYesNo("sign me up") == None
  {
    var m := "sign me up";
    assert Trimmed(m);
    PlainNormalised(m);
    assert Classify(m) == None;
    assert OccursAt(Lower(m), OnboardingTriggers[1], 0);
  }

  lemma YesIsYes()
    ensures Trimmed("yes")
    ensures InterpretYesNo("yes") == Some(Yes)
  {
    var m := "yes";
    assert Trimmed(m);
    PlainNormalised(m);
    assert m == YesWords[0];
  }
}

=== FILE: text.dfy ===
/** The string primitives the controller uses: `str.strip()`, `str.lower()`,
    the substring test `x in y`, and `split(' ')[0]`. Characters are modelled
    at the ASCII level. */
module Text {

  /** `str.isspace()` on ASCII characters: tab, line feed, vertical tab, form
      feed, carriage return, the four information separators 0x1C-0x1F, and
      the space itself. */
  predicate IsSpace(c: char) {
    9 <= c as int <= 13 || 28 <= c as int <= 32
  }

  predicate AllSpace(s: string) {
    forall k :: 0 <= k < |s| ==> IsSpace(s[k])
  }

  /** `s.lstrip()`: the suffix of `s` left after dropping every leading space. */
  function TrimLeft(s: string): (r: string)
    ensures |r| <= |s| && r == s[|s| - |r|..]
    ensures AllSpace(s[..|s| - |r|])
    ensures r == [] || !IsSpace(r[0])
  {
    if |s| > 0 && IsSpace(s[0]) then
      var r := TrimLeft(s[1..]);
      assert s[..|s| - |r|] == [s[0]] + s[1..][..|s| - 1 - |r|];
      r
    else
      s
  }

  /** `s.rstrip()`: the prefix of `s` left after dropping every trailing space. */
  function TrimRight(s: string): (r: string)
    ensures |r| <= |s| && r == s[..|r|]
    ensures AllSpace(s[|r|..])
    ensures r == [] || !IsSpace(r[|r| - 1])
  {
    if |s| > 0 && IsSpace(s[|s| - 1]) then
      var r := TrimRight(s[..|s| - 1]);
      assert s[|r|..] == s[..|s| - 1][|r|..] + [s[|s| - 1]];
      r
    else
      s
  }

  /** `s.strip()`: the string left after dropping the leading and then the
      trailing spaces. It neither starts nor ends with a space, and it is
      empty exactly when `s` is nothing but spaces. */
  function Strip(s: string): (r: string)
    ensures r == [] || (!IsSpace(r[0]) && !IsSpace(r[|r| - 1]))
    ensures r == [] <==> AllSpace(s)
  {
    var t := TrimLeft(s);
    var r := TrimRight(t);
    StripShape(s, |s| - |t|, t, r);
    r
  }

  /** `r` sits in `s` at offset `a`, with only spaces before and after it. */
  predicate InfixAt(s: string, a: int, r: string) {
    0 <= a && a + |r| <= |s| && r == s[a..a + |r|]
    && AllSpace(s[..a]) && AllSpace(s[a + |r|..])
  }

  /** `strip()` keeps an infix of `s`: everything before it and everything
      after it is space. */
  lemma StripInfix(s: string)
    ensures exists a :: InfixAt(s, a, Strip(s))
  {
    var t := TrimLeft(s);
    var r := TrimRight(t);
    var a := |s| - |t|;
    StripShape(s, a, t, r);
    assert InfixAt(s, a, Strip(s));
  }

  /** Composing the two halves of `strip()`: a leading run of spaces, then
      the kept infix, then a trailing run of spaces. */
  lemma StripShape(s: string, a: nat, t: string, r: string)
    requires a <= |s| && t == s[a..] && AllSpace(s[..a])
    requires t == [] || !IsSpace(t[0])
    requires |r| <= |t| && r == t[..|r|] && AllSpace(t[|r|..])
    requires r == [] || !IsSpace(r[|r| - 1])
    ensures InfixAt(s, a, r)
    ensures r == [] || (!IsSpace(r[0]) && !IsSpace(r[|r| - 1]))
    ensures r == [] <==> AllSpace(s)
  {
    if r != [] {
      assert r[0] == t[0];
    }
    SuffixSlices(s, a, |r|);
    StripEmptyIff(s, a, t, r);
  }

  /** Slicing a suffix is slicing the whole. */
  lemma SuffixSlices<T>(s: seq<T>, a: nat, n: nat)
    requires a + n <= |s|
    ensures s[a..][..n] == s[a..a + n] && s[a..][n..] == s[a + n..]
  {
  }

  lemma StripEmptyIff(s: string, a: nat, t: string, r: string)
    requires a <= |s| && t == s[a..] && AllSpace(s[..a])
    requires t == [] || !IsSpace(t[0])
    requires |r| <= |t| && r == t[..|r|] && AllSpace(t[|r|..])
    ensures r == [] <==> AllSpace(s)
  {
    if r == [] {
      assert t[|r|..] == t;
      assert s[..a] == s;
    } else {
      assert s[a] == r[0];
    }
  }

  /** A non-empty string that neither starts nor ends with a space: what
      `chat()` hands on once it has stripped a message and rejected the
      empty one. */
  predicate Trimmed(s: string) {
    s != [] && !IsSpace(s[0]) && !IsSpace(s[|s| - 1])
  }

  /** The trimmed strings are exactly the non-empty results of `strip()`,
      and `strip()` leaves them as they are. */
  lemma TrimmedIsStripped(s: string)
    ensures Trimmed(s) <==> s != [] && Strip(s) == s
    ensures Strip(s) != [] ==> Trimmed(Strip(s))
  {
    if Trimmed(s) {
      assert TrimLeft(s) == s;
      assert TrimRight(s) == s;
    }
  }

  /** Lower-casing turns no character into a space and no space into
      anything else, so it keeps a string trimmed. */
  lemma LowerKeepsTrimmed(m: string)
    requires Trimmed(m)
    ensures Trimmed(Lower(m))
  {
    var l := Lower(m);
    assert l[0] == LowerChar(m[0]) && l[|l| - 1] == LowerChar(m[|m| - 1]);
  }

  /** A word without capitals and without surrounding spaces passes
      through both `strip()` and `lower()` unchanged. */
  lemma PlainWord(m: string)
    requires forall c :: c in m ==> !IsUpper(c)
    requires Trimmed(m)
    ensures Lower(m) == m && Strip(m) == m
  {
    LowerOfLowercase(m);
    TrimmedIsStripped(m);
  }

  /** Stripping twice is stripping once. */
  lemma StripIdempotent(s: string)
    ensures Strip(Strip(s)) == Strip(s)
  {
    TrimmedIsStripped(s);
    if Strip(s) != [] {
      TrimmedIsStripped(Strip(s));
    }
  }

  /** A stripped message never ends in a line feed, so a regex `$` that may
      also match just before a final line feed sees no difference there. */
  lemma StrippedHasNoFinalNewline(s: string)
    requires Trimmed(s)
    ensures s[|s| - 1] != '\n'
  {
  }

  predicate IsUpper(c: char) {
    'A' <= c <= 'Z'
  }

  /** `str.lower()` on one ASCII character. */
  function LowerChar(c: char): (r: char)
    ensures !IsUpper(r)
    ensures IsUpper(c) ==> r as int == c as int + 32
    ensures !IsUpper(c) ==> r == c
  {
    if IsUpper(c) then (c as int + 32) as char else c
  }

  /** `str.lower()`: lower-cases every character in place. */
  function Lower(s: string): (r: string)
    ensures |r| == |s|
    ensures forall k :: 0 <= k < |r| ==> !IsUpper(r[k])
    ensures forall k :: 0 <= k < |s| && !IsUpper(s[k]) ==> r[k] == s[k]
    ensures forall k :: 0 <= k < |s| && IsUpper(s[k]) ==> r[k] as int == s[k] as int + 32
  {
    seq(|s|, k requires 0 <= k < |s| => LowerChar(s[k]))
  }

  /** Lower-casing works character by character, so it distributes over
      concatenation. */
  lemma LowerAppend(a: string, b: string)
    ensures Lower(a + b) == Lower(a) + Lower(b)
  {
    assert forall k :: 0 <= k < |a + b| ==> Lower(a + b)[k] == (Lower(a) + Lower(b))[k] by {
      forall k | 0 <= k < |a + b|
        ensures Lower(a + b)[k] == (Lower(a) + Lower(b))[k]
      {
        if k < |a| {
          assert (a + b)[k] == a[k];
        } else {
          assert (a + b)[k] == b[k - |a|];
        }
      }
    }
  }

  /** A string without capitals is its own lower-case form; in particular
      lower-casing is idempotent. */
  lemma LowerOfLowercase(s: string)
    requires forall c :: c in s ==> !IsUpper(c)
    ensures Lower(s) == s
  {
    assert forall k :: 0 <= k < |s| ==> s[k] in s;
  }

  lemma LowerIdempotent(s: string)
    ensures Lower(Lower(s)) == Lower(s)
  {
    LowerOfLowercase(Lower(s));
  }

  /** Python's `needle in hay` on strings: `needle` occurs in `hay` at some
      offset. */
  predicate Contains(hay: string, needle: string) {
    exists i | 0 <= i <= |hay| - |needle| :: OccursAt(hay, needle, i)
  }

  predicate OccursAt(hay: string, needle: string, i: int) {
    0 <= i <= |hay| - |needle| && hay[i..i + |needle|] == needle
  }

  /** An occurrence survives any text added before or after. */
  lemma ContainsExtend(hay: string, needle: string, p: string, q: string)
    requires Contains(hay, needle)
    ensures Contains(p + hay + q, needle)
  {
    var i :| 0 <= i <= |hay| - |needle| && OccursAt(hay, needle, i);
    var big := p + hay + q;
    assert big[|p| + i..|p| + i + |needle|] == hay[i..i + |needle|];
    assert OccursAt(big, needle, |p| + i);
  }

  /** `s.split(' ')[0]`: the text before the first space character (only
      U+0020 splits; a tab does not), or all of `s` when it has none. */
  function FirstWord(s: string): (r: string)
    ensures |r| <= |s| && r == s[..|r|]
    ensures ' ' !in r
    ensures |r| == |s| || s[|r|] == ' '
  {
    if s == [] || s[0] == ' ' then [] else [s[0]] + FirstWord(s[1..])
  }
}

=== FILE: validators.dfy ===
/** The two contact-field validators of app.py, each given three ways: the
    regular expression transcribed as a predicate (one disjunct per way the
    pattern can match), a closed form that says what the pattern accepts, and
    a single-pass checker method proved to agree with the predicate. Digits
    are the ASCII digits. */
module Validators {

  predicate IsDigit(c: char) {
    '0' <= c <= '9'
  }

  predicate AllDigits(d: string) {
    forall k :: 0 <= k < |d| ==> IsDigit(d[k])
  }

  // ---------------------------------------------------------------------
  // Phone: re.match(r"^\+?1?\d{9,15}$", phone)
  // ---------------------------------------------------------------------

  /** `\d{9,15}$`: nine to fifteen digits running to the end of the string. */
  predicate DigitRun(d: string) {
    9 <= |d| <= 15 && AllDigits(d)
  }

  /** `1?\d{9,15}$`: the optional literal `1` is either matched or skipped. */
  predicate OptionalOneThenDigits(t: string) {
    DigitRun(t) || (|t| > 0 && t[0] == '1' && DigitRun(t[1..]))
  }

  /** is_valid_phone: `^\+?` is either matched or skipped before the rest. */
  predicate IsValidPhone(s: string) {
    OptionalOneThenDigits(s) || (|s| > 0 && s[0] == '+' && OptionalOneThenDigits(s[1..]))
  }

  /** The number with its optional leading plus sign removed. */
  function PhoneDigits(s: string): (d: string)
    ensures |s| > 0 && s[0] == '+' ==> s == ['+'] + d
    ensures !(|s| > 0 && s[0] == '+') ==> d == s
  {
    if |s| > 0 && s[0] == '+' then s[1..] else s
  }

  /** What the phone pattern accepts: after an optional `+`, only digits,
      nine to fifteen of them, or sixteen when the first is the `1` that the
      optional `1?` absorbs. */
  predicate PhoneShape(s: string) {
    var d := PhoneDigits(s);
    AllDigits(d) && (9 <= |d| <= 15 || (|d| == 16 && d[0] == '1'))
  }

  lemma OneThenDigitsShape(t: string)
    ensures OptionalOneThenDigits(t) <==> AllDigits(t) && (9 <= |t| <= 15 || (|t| == 16 && t[0] == '1'))
  {
    if |t| > 0 {
      assert t == [t[0]] + t[1..];
      if AllDigits(t) {
        assert AllDigits(t[1..]) by {
          forall k | 0 <= k < |t[1..]| ensures IsDigit(t[1..][k]) {
            assert t[1..][k] == t[k + 1];
          }
        }
      }
      if t[0] == '1' && AllDigits(t[1..]) {
        forall k | 0 <= k < |t| ensures IsDigit(t[k]) {
          if k > 0 { assert t[k] == t[1..][k - 1]; }
        }
      }
    }
  }

  /** The phone pattern accepts exactly the strings of PhoneShape. */
  lemma {:induction false} PhoneClosedForm(s: string)
    ensures IsValidPhone(s) <==> PhoneShape(s)
  {
    OneThenDigitsShape(s);
    if |s| > 0 && s[0] == '+' {
      OneThenDigitsShape(s[1..]);
      assert !IsDigit(s[0]);
    }
  }

  /** is_valid_phone in one left-to-right scan. */
  method CheckPhone(s: string) returns (ok: bool)
    ensures ok == IsValidPhone(s)
  {
    var start := if |s| > 0 && s[0] == '+' then 1 else 0;
    var i := start;
    while i < |s| && IsDigit(s[i])
      invariant start <= i <= |s|
      invariant forall k :: start <= k < i ==> IsDigit(s[k])
    {
      i := i + 1;
    }
    var n := |s| - start;
    ok := i == |s| && (9 <= n <= 15 || (n == 16 && s[start] == '1'));
    PhoneClosedForm(s);
    var d := PhoneDigits(s);
    assert forall k :: 0 <= k < |d| ==> d[k] == s[start + k];
    if i < |s| {
      assert d[i - start] == s[i];
    }
  }

  // ---------------------------------------------------------------------
  // Email: re.match(r"[^@]+@[^@]+\.[^@]+", email)
  // ---------------------------------------------------------------------

  /** `[^@]+`: a non-empty run of characters other than the at sign. */
  predicate Plain(t: string) {
    |t| > 0 && '@' !in t
  }

  /** The pattern matches the prefix `s[..k]` of `s` as
      `s[..i]` `@` `s[i + 1..j]` `.` `s[j + 1..k]`. Because `re.match`
      anchors only at the start, `s[k..]` may be anything. */
  predicate EmailMatchAt(s: string, i: int, j: int, k: int) {
    && 0 < i < j < k <= |s|
    && Plain(s[..i]) && s[i] == '@'
    && Plain(s[i + 1..j]) && s[j] == '.'
    && Plain(s[j + 1..k])
  }

  /** is_valid_email: some prefix of `s` has the shape `x@y.z` with `x`,
      `y` and `z` non-empty and free of at signs. */
  predicate IsValidEmail(s: string) {
    exists i, j, k | 0 <= i < |s| && 0 <= j < |s| && 0 <= k <= |s| :: EmailMatchAt(s, i, j, k)
  }

  /** Anything may follow a valid address: the pattern is not anchored at the
      end. */
  lemma EmailSuffixAllowed(s: string, t: string)
    requires IsValidEmail(s)
    ensures IsValidEmail(s + t)
  {
    var i, j, k :| 0 <= i < |s| && 0 <= j < |s| && 0 <= k <= |s| && EmailMatchAt(s, i, j, k);
    var u := s + t;
    assert u[..i] == s[..i];
    assert u[i + 1..j] == s[i + 1..j];
    assert u[j + 1..k] == s[j + 1..k];
    assert EmailMatchAt(u, i, j, k);
  }

  /** Every valid address has an at sign with a dot somewhere after it. */
  lemma EmailNeedsAtThenDot(s: string)
    requires IsValidEmail(s)
    ensures exists i, j :: 0 <= i < j < |s| && s[i] == '@' && s[j] == '.'
  {
    var i, j, k :| 0 <= i < |s| && 0 <= j < |s| && 0 <= k <= |s| && EmailMatchAt(s, i, j, k);
    assert s[i] == '@' && s[j] == '.';
  }

  lemma NoAtNoEmail(s: string)
    requires '@' !in s
    ensures !IsValidEmail(s)
  {
    forall i, j, k | 0 <= i < |s| && 0 <= j < |s| && 0 <= k <= |s|
      ensures !EmailMatchAt(s, i, j, k)
    {
      if 0 <= i < |s| {
        assert s[i] in s;
      }
    }
  }

  lemma NoDotNoEmail(s: string)
    requires '.' !in s
    ensures !IsValidEmail(s)
  {
    forall i, j, k | 0 <= i < |s| && 0 <= j < |s| && 0 <= k <= |s|
      ensures !EmailMatchAt(s, i, j, k)
    {
      if 0 <= j < |s| {
        assert s[j] in s;
      }
    }
  }

  /** The local part `[^@]+` cannot be empty. */
  lemma LeadingAtNoEmail(s: string)
    requires |s| > 0 && s[0] == '@'
    ensures !IsValidEmail(s)
  {
    forall i, j, k | 0 <= i < |s| && 0 <= j < |s| && 0 <= k <= |s|
      ensures !EmailMatchAt(s, i, j, k)
    {
      if 0 < i {
        assert s[..i][0] == s[0];
      }
    }
  }

  /** A dot at `d` that can end the domain part `[^@]+\.` begun after the at
      sign at `i`: it is not the first character after `i`, and a character
      other than `@` follows it. */
  predicate DomainDot(s: string, i: int, d: int) {
    0 <= i && i + 1 < d && d + 1 < |s| && s[d] == '.' && s[d + 1] != '@'
  }

  /** What the email pattern accepts: the first at sign is not the first
      character, and a domain dot follows it before any further at sign. */
  predicate EmailShape(s: string) {
    exists a, d | 0 < a < d < |s| ::
      && s[a] == '@' && '@' !in s[..a]
      && DomainDot(s, a, d) && '@' !in s[a + 1..d]
  }

  /** The email pattern accepts exactly the strings of EmailShape. */
  lemma EmailClosedForm(s: string)
    ensures IsValidEmail(s) <==> EmailShape(s)
  {
    if IsValidEmail(s) {
      var i, j, k :| 0 <= i < |s| && 0 <= j < |s| && 0 <= k <= |s| && EmailMatchAt(s, i, j, k);
      assert s[j + 1..k][0] == s[j + 1];
      assert DomainDot(s, i, j);
    }
    if EmailShape(s) {
      var a, d :| 0 < a < d < |s| && s[a] == '@' && '@' !in s[..a]
                  && DomainDot(s, a, d) && '@' !in s[a + 1..d];
      assert s[d + 1..d + 2] == [s[d + 1]];
      assert EmailMatchAt(s, a, d, d + 2);
    }
  }

  /** When `s[a]` is the first at sign and the text from `a + 1` up to the
      next at sign `e` (or the end) holds no domain dot, nothing matches. */
  lemma NoMatchPastFirstAt(s: string, a: int, e: int)
    requires 0 <= a < e <= |s| && s[a] == '@' && '@' !in s[..a]
    requires e == |s| || s[e] == '@'
    requires '@' !in s[a + 1..e]
    requires forall d :: a + 1 < d < e ==> !DomainDot(s, a, d)
    ensures !IsValidEmail(s)
  {
    forall i, j, k | 0 <= i < |s| && 0 <= j < |s| && 0 <= k <= |s|
      ensures !EmailMatchAt(s, i, j, k)
    {
      if i < a {
        assert s[..a][i] == s[i];
      } else if i > a {
        assert s[..i][a] == s[a];
      } else if e < j {
        assert s[a + 1..j][e - a - 1] == s[e];
      } else if a + 1 < j < e && j + 1 < k {
        assert !DomainDot(s, a, j);
        assert s[j + 1..k][0] == s[j + 1];
      }
    }
  }

  /** is_valid_email in one left-to-right scan: find the first at sign, then
      look for a domain dot before the next at sign. */
  method CheckEmail(s: string) returns (ok: bool)
    ensures ok == IsValidEmail(s)
  {
    var a := 0;
    while a < |s| && s[a] != '@'
      invariant 0 <= a <= |s|
      invariant '@' !in s[..a]
    {
      assert s[..a + 1] == s[..a] + [s[a]];
      a := a + 1;
    }
    if a == |s| {
      assert s[..a] == s;
      NoAtNoEmail(s);
      return false;
    }
    if a == 0 {
      LeadingAtNoEmail(s);
      return false;
    }
    var e := a + 1;
    while e < |s| && s[e] != '@'
      invariant a + 1 <= e <= |s|
      invariant '@' !in s[a + 1..e]
      invariant forall d :: a + 1 < d < e ==> !DomainDot(s, a, d)
    {
      if DomainDot(s, a, e) {
        assert EmailMatchAt(s, a, e, e + 2);
        return true;
      }
      assert s[a + 1..e + 1] == s[a + 1..e] + [s[e]];
      e := e + 1;
    }
    NoMatchPastFirstAt(s, a, e);
    return false;
  }

  // ---------------------------------------------------------------------
  // The unit-test vectors of test_app.py
  // ---------------------------------------------------------------------

  lemma EmailVectors()
    ensures IsValidEmail("test@example.com")
    ensures !IsValidEmail("test@example")
    ensures !IsValidEmail("test.example.com")
  {
    var s := "test@example.com";
    assert s[..4] == "test";
    assert s[5..12] == "example";
    assert s[13..16] == "com";
    assert EmailMatchAt(s, 4, 12, 16);
    NoDotNoEmail("test@example");
    NoAtNoEmail("test.example.com");
  }

  lemma PhoneVectors()
    ensures IsValidPhone("+11234567890")
    ensures IsValidPhone("9876543210")
    ensures !IsValidPhone("123-abc-7890")
    ensures !IsValidPhone("not a number")
  {
    var p := "+11234567890";
    assert p[1..] == "11234567890";
    assert DigitRun(p[1..]);
    var q := "123-abc-7890";
    assert !IsDigit(q[3]);
    assert !IsDigit(q[1..][2]);
    var n := "not a number";
    assert !IsDigit(n[0]) && n[0] != '1' && n[0] != '+';
  }

  /** Having one at sign and a dot after it does not suffice: the text
      between the two must be non-empty, and so must the local part. */
  lemma EmailNeedsNonEmptyParts()
    ensures !IsValidEmail("a@.b")
    ensures !IsValidEmail("@a.b")
  {
    NoMatchPastFirstAt("a@.b", 1, 4);
    LeadingAtNoEmail("@a.b");
  }
}

=== FILE: wrappers.dfy ===
/** The optional-value datatype used for Python's `None` results and for
    dictionary lookups that may miss. */
module Wrappers {

  datatype Option<+T> = None | Some(value: T) {

    /** The carried value; `default` stands in for a missing one. */
    function GetOr(default: T): T {
      match this
      case Some(v) => v
      case None => default
    }
  }
}
